=== FILE: README.md ===
# pwnlogger core: level-gated logging and widget lifecycle, in Dafny

This project models the `src/` package of pwnlogger, a terminal logging utility built on
the `rich` library. It covers:

- the five ordered log levels and the default style table;
- the logger facade (`_PwnLogger`): threshold, `set_level`, style merge, `log` and its
  per-level shortcuts, `raw`, and the `status`/`progress` factories;
- the spinner widget (`_Status`) and the progress-bar widget (`_Progress`) as state
  machines. Their `task_id` is the "active" flag, `visible` is frozen at construction,
  `finish` runs at most once per `__enter__`, and `__exit__` finalises in one of three ways;
- the sub-log mixin (`LoggableMixin`), which prints indented lines on a widget's own console;
- the class-level console cache of the progress widget.

The `rich` library is replaced by an abstract display (`Rendering.Display`). The display
records whether its render loop runs, whether it is transient, and its tasks (description,
completed, total). Everything printed goes to one ordered event log (`Output.Streams`).
Each event records the console, the style and the printed objects.

Each widget has two layers:

- a pure layer: a state datatype and one transition function per method (`Entered`,
  `Updated`, `Finished`, `Exited`, ...);
- a class whose fields are the source's fields. Each method's `ensures` ties the new state
  and the new output to the matching transition function.

Lemmas over arbitrary sequences of operations (`Run`) state the lifecycle properties. The
operations include threshold changes between calls.

Behaviours of the code worth knowing, all modelled as written:

- Sub-log lines are gated only by the threshold (src/mixins.py:24), so they are printed
  before `__enter__`, after `finish` and on an invisible widget, although the mixin's
  docstrings speak of "active display contexts" and "the active task"
  (src/mixins.py:19, src/mixins.py:22). An invisible widget is therefore silent only when
  its sub-log calls are below the threshold.
- The spinner's final line is printed without re-checking the threshold
  (src/status.py:83-86). The bar's normal final line goes through `log` and is re-gated
  (src/progress.py:160). The bar's ERROR finish prints no line at all.
- `set_level` raises `TypeError` for anything but a `LogLevel` member, including a plain
  int such as 20.
- The error theme that a bar's ERROR finish pushes onto its console is never popped.
  That console is shared through the cache, so later bars of the same style inherit the
  theme (`Factories.SharedConsoleKeepsErrorTheme`).

## Model

| member | source | states |
|---|---|---|
| Levels.Value | src/enums.py:7-11 | every level's value is a multiple of 10 between 10 and 50 |
| Levels.LevelValues | src/enums.py:7-11 | DEBUG=10, INFO=20, WARN=30, SUCCESS=40, ERROR=50 |
| Levels.StrictTotalOrder | src/enums.py:7-11 | `>=` on levels is a strict total order, DEBUG < INFO < WARN < SUCCESS < ERROR |
| Levels.ErrorIsMaximum | src/enums.py:11 | ERROR is at least every threshold and is the only maximum |
| Levels.DebugIsMinimum | src/enums.py:7 | every level is at least DEBUG, so the default threshold lets everything through |
| Levels.EveryLevelTruthy | src/enums.py:7-11 | no level has value 0, so every level is truthy |
| Theme.DefaultStyles | src/theme.py:3-9 | `DEFAULT_STYLES` has an entry for exactly the five levels |
| Theme.DefaultStylesTotal | src/theme.py:3-9 | the default table has exactly the five levels as keys |
| Theme.DefaultStyleValues | src/theme.py:4-8 | SUCCESS "bold green", ERROR "bold red", WARN "bold yellow", INFO "bold blue", DEBUG "dim" |
| Theme.DefaultStylesDistinct | src/theme.py:4-8 | the five default styles are pairwise distinct |
| Theme.DefaultLookupNeverEmpty | src/theme.py:3-9 | a lookup in the default table never falls back to the empty style |
| Theme.StyleFor | src/core.py:41 | `styles.get(level, "")`: the entry when present, the empty style otherwise |
| Output.StreamOf | src/core.py:21-22 | only the error console writes to stderr; the logger console and widget consoles write to stdout |
| Output.ThemedConsole.constructor | src/progress.py:49-57 | a new widget console carries the theme giving percentage and remaining time the widget's style |
| Output.ThemedConsole.PushTheme | src/progress.py:133-135 | `push_theme` puts the override on top of the console's theme stack |
| Core.ShouldLog | src/core.py:35-36 | `_should_log`: ERROR passes every threshold, DEBUG admits every level, and only ERROR passes the ERROR threshold |
| Core.LevelTypeError | src/core.py:30-32 | the TypeError message ends with the name of the rejected argument's type |
| Core.ShouldLogMonotone | src/core.py:35-36 | raising the threshold never admits more levels; ERROR passes every threshold; DEBUG admits all |
| Core.Route | src/core.py:42 | the error console is chosen iff the level is ERROR, and it is the only one writing to stderr |
| Core.MergeStyles | src/core.py:24-26 | the merged table is total; an override wins on its key; unmentioned levels keep their default |
| Core.LogLine | src/core.py:38-43 | a line is printed iff level >= threshold, on the routed console, styled by the table, with the given objects |
| Core.Logger.constructor | src/core.py:15-26 | the threshold is the given level; styles are the defaults updated by the overrides, and the default table is left unchanged |
| Core.Logger.SetLevel | src/core.py:28-33 | a non-member argument gives the TypeError message and leaves the threshold; a member becomes the threshold; styles never change |
| Core.Logger.Log | src/core.py:38-43 | appends exactly the `LogLine` of the call to the output, nothing else |
| Core.Logger.Success | src/core.py:45-46 | log at SUCCESS: one line unless the threshold is ERROR |
| Core.Logger.Info | src/core.py:48-49 | log at INFO: one line iff the threshold is DEBUG or INFO |
| Core.Logger.Warn | src/core.py:51-52 | log at WARN: one line iff the threshold is at most WARN |
| Core.Logger.Debug | src/core.py:54-55 | log at DEBUG: one line iff the threshold is DEBUG |
| Core.Logger.Error | src/core.py:57-58 | log at ERROR: always exactly one line, on the error console |
| Core.Logger.Raw | src/core.py:60-62 | always exactly one unstyled line on the stdout console, whatever the threshold |
| Rendering.Start | src/status.py:35 | `start()` runs the render loop and keeps the tasks |
| Rendering.Stop | src/status.py:61-62 | `stop()` halts the render loop and keeps the tasks, so a non-transient bar stays as it was |
| Rendering.RestyleColumn | src/progress.py:139-141 | a bar column takes the style for its complete and finished parts; any other column is unchanged |
| Rendering.AddTask | src/status.py:36 | a registered task is appended and gets the next id |
| Rendering.UpdateTask | src/progress.py:112-117 | only the addressed task changes: absolute completion if given, else advance added; description if given; total kept |
| Rendering.Restyled | src/progress.py:138-141 | every bar column takes the error style for complete and finished parts; other columns are unchanged |
| Mixins.SubLog | src/mixins.py:21-26 | printed iff level >= threshold, on the widget's display console, styled by the logger's table, after a " " indent object |
| Mixins.Success | src/mixins.py:28-29 | sub-log at SUCCESS: printed unless the threshold is ERROR; the line is the indent followed by the caller's objects |
| Mixins.Info | src/mixins.py:31-32 | sub-log at INFO: printed iff the threshold is DEBUG or INFO; the line is the indent followed by the caller's objects |
| Mixins.Warn | src/mixins.py:34-35 | sub-log at WARN: printed iff the threshold is at most WARN; the line is the indent followed by the caller's objects |
| Mixins.Error | src/mixins.py:37-38 | sub-log at ERROR: always printed, on the display console rather than the error console; the line is the indent followed by the caller's objects |
| Mixins.Debug | src/mixins.py:40-41 | sub-log at DEBUG: printed iff the threshold is DEBUG; the line is the indent followed by the caller's objects |
| Lifecycle.FinalMessage | src/status.py:76 | the explicit message when one is given, else the current message |
| Lifecycle.FinalLevel | src/status.py:77 | the truthiness fallback `level if level else self.level` picks the given level whenever one is given |
| Status.Initial | src/status.py:13-31 | visible iff level >= the threshold at construction; inactive; a fresh, idle, transient display with no tasks |
| Status.Entered | src/status.py:33-37 | afterwards the task id is set iff visible and the display runs iff visible; a visible spinner appends a task holding the message, and its id is the old task count |
| Status.Stopped | src/status.py:60-62 | the display is stopped afterwards; a stop of a stopped display changes nothing |
| Status.Updated | src/status.py:64-67 | an active widget takes the message (field and task description) and every other task field and task is unchanged; otherwise nothing changes |
| Status.Finished | src/status.py:69-86 | no-op unless active; else display stopped, task id cleared, one line of the final message and level (explicit, else current), routed like `log`, not re-gated |
| Status.Exited | src/status.py:39-52 | inactive (invisible, never entered or already finished): nothing changes and nothing prints; active: finalised by cause, then the display is stopped and the task id cleared; the message and the tasks are kept |
| Status.ExitFinalLine | src/status.py:39-52 | an interrupt prints "Execution aborted by user" and an exception its text, both at ERROR on stderr; a clean exit prints the message at the widget's level; a finished widget prints nothing |
| Status.FinishIdempotent | src/status.py:73-74 | a second finish, or a clean exit after finish, prints nothing and changes nothing; a finish prints at most one line |
| Status.FinalLineIgnoresThreshold | src/status.py:80-86 | the final line is printed even when the threshold was raised above the widget's level |
| Status.VisibilityFrozen | src/status.py:19 | no sequence of calls or threshold changes alters `visible` or `level` |
| Status.InvisibleIsSilent | src/status.py:33-67 | an invisible spinner's state never changes; it prints only sub-log lines, and nothing without sub-log calls |
| Status.FinishedIsQuiet | src/status.py:73-74 | after finishing, updates, finishes, stops and exits print nothing and do not reactivate |
| Status.SubLogIgnoresLifecycle | src/mixins.py:21-26 | a sub-log at or above the threshold prints on the stdout console in every lifecycle state, even at ERROR |
| Status.StatusWidget.constructor | src/status.py:13-31 | the fields are the initial state of `Initial`, against the logger's current threshold |
| Status.StatusWidget.Enter | src/status.py:33-37 | the new state is `Entered` of the old one |
| Status.StatusWidget.Stop | src/status.py:60-62 | the new state is `Stopped` of the old one |
| Status.StatusWidget.Update | src/status.py:64-67 | the new state is `Updated` of the old one |
| Status.StatusWidget.Finish | src/status.py:69-86 | new state and appended output are those of `Finished` |
| Status.StatusWidget.Exit | src/status.py:39-52 | new state and appended output are those of `Exited`; the exception is never suppressed |
| Status.StatusWidget.SubLog | src/mixins.py:21-26 | appends the mixin's line for the logger's current view and the stdout console |
| Progress.Initial | src/progress.py:24-67 | visible iff level >= the threshold at construction; inactive; a fresh, idle, persistent display with no tasks; the four columns of `BarColumns` in the widget's style |
| Progress.Entered | src/progress.py:69-75 | when visible the display runs and a task (message, 0 of total) is appended after the earlier tasks, its id being the old task count; otherwise nothing changes |
| Progress.Stopped | src/progress.py:99-101 | the display is stopped afterwards; a stop of a stopped display changes nothing |
| Progress.Updated | src/progress.py:103-117 | a description always becomes the message; while active, only the widget's task changes: its description if given, its completion absolute if given else advanced, its total kept |
| Progress.Finished | src/progress.py:119-160 | no-op unless active; ERROR: only the task's description changes (to the styled message), bars restyled, error theme pushed, no line; otherwise: only the task's completion changes (to total) and the line goes through `log` |
| Progress.Exited | src/progress.py:77-91 | inactive (invisible, never entered or already finished): nothing changes, prints or is pushed; active: finalised by cause, then the display is stopped and the task id cleared; the message, the task count and every other task are kept; the columns are kept or restyled in the error style |
| Progress.ExitOutcome | src/progress.py:77-91 | an exception freezes the bar, pushes the error theme and prints nothing; a clean exit of a non-ERROR bar completes it and logs its message at its level; a clean exit of an ERROR-level bar freezes it like an exception; each case gives the whole task sequence and the columns |
| Progress.FinishIdempotent | src/progress.py:123-124 | a second finish, or a clean exit after finish, changes nothing; a finish prints at most one line |
| Progress.FinalLineIsGated | src/progress.py:152-160 | the bar's final line is dropped when the threshold was raised above its level, while the bar is still completed |
| Progress.InvisibleStep | src/progress.py:69-117 | one call on an invisible bar changes at most the message, pushes nothing, and prints only sub-log lines |
| Progress.VisibilityFrozen | src/progress.py:33 | no sequence of calls or threshold changes alters `visible`, `level` or `total` |
| Progress.InvisibleIsSilent | src/progress.py:69-124 | an invisible bar changes at most its message, pushes no theme, prints only sub-log lines, and nothing without them |
| Progress.FinishedIsQuiet | src/progress.py:123-124 | after finishing, nothing prints, no theme is pushed, and the bar's tasks and completion stay frozen |
| Progress.SubLogIgnoresLifecycle | src/mixins.py:21-26 | a sub-log at or above the threshold prints on the bar's own console in every lifecycle state, never on the error console |
| Progress.BarColumns | src/progress.py:60-67 | a new bar has four columns: description text, the bar in the widget's style, percentage, time remaining |
| Progress.ErrorMarkup | src/progress.py:145 | the ERROR description is `[style]`, then the message, then `[/style]` |
| Progress.ConsoleCache.constructor | src/progress.py:22 | the class-level console cache starts empty |
| Progress.PartialBarScenario | src/progress.py:103-160 | a bar of 100 advanced by 30 stays at 30 after an exception and reaches 100 after `finish()` |
| Progress.ProgressWidget.constructor | src/progress.py:24-67 | the fields are `Initial`; a cached console for the key is reused and the cache unchanged; a missing key gets a new console inserted once |
| Progress.ProgressWidget.Enter | src/progress.py:69-75 | the new state is `Entered` of the old one |
| Progress.ProgressWidget.Stop | src/progress.py:99-101 | the new state is `Stopped` of the old one |
| Progress.ProgressWidget.Update | src/progress.py:103-117 | the new state is `Updated` of the old one |
| Progress.ProgressWidget.RestyleBars | src/progress.py:138-141 | the columns array becomes `Restyled` of its old contents, in place |
| Progress.ProgressWidget.Finish | src/progress.py:119-160 | new state, appended output and pushed themes are those of `Finished` |
| Progress.ProgressWidget.Exit | src/progress.py:77-91 | new state, output and themes are those of `Exited`; the exception is never suppressed |
| Progress.ProgressWidget.SubLog | src/mixins.py:21-26 | appends the mixin's line for the logger's current view and the bar's themed console |
| Factories.NewStatus | src/core.py:64-67 | a new spinner bound to the logger, default level INFO, visible iff its level passes the current threshold |
| Factories.NewProgress | src/core.py:69-74 | a new bar bound to the logger, default total 100 and level INFO, visible iff its level passes the current threshold |
| Factories.SharedConsoleKeepsErrorTheme | src/progress.py:40-58 | a second bar of the same style gets the first one's console, with the first one's error theme still on top |

## Left out

- The `rich` internals are not modelled: rendering, the live refresh thread, the columns' drawing and markup parsing, and terminal detection. Whether stdout is a terminal, and the identity of its file, are constructor parameters of `Core.Logger`.
- Rendering.UpdateTask: how the library combines `advance` and `completed` is taken as given (an absolute value wins, otherwise add). Completion is not clamped to `total`, and nothing is claimed about overflow.
- Style strings are opaque. The `[style]...[/style]` markup is kept as text and not interpreted.
- `__aenter__`/`__aexit__` (src/status.py:54-58, src/progress.py:93-97) only call `__enter__`/`__exit__`. They have no separate members.
- The spinner's columns (src/status.py:26-31) are not recorded, because nothing changes them after construction.
- Printed objects are strings. The library's conversion and joining of several objects is not modelled.
- Exceptions raised inside `finish` by the library are not modelled, so the `try`/`finally` in `__exit__` is a plain sequence ending in `stop`.
- `set_level`'s `TypeError` is modelled as a returned error message, not as an exception.
- Levels outside the enumeration are not modelled. Only `set_level` checks its argument (src/core.py:29). The constructor (src/core.py:17,23), `log` (src/core.py:38), `status`/`progress` (src/core.py:64-74) and `finish` (src/status.py:77, src/progress.py:119) accept any int unchecked, so `_PwnLogger(level=20)` or a bar at level 25 (styled `""` by the table lookup) cannot be expressed, nor `finish(level=0)`, where the truthiness fallback differs from a None test.
- The output log interleaves stdout and stderr in program order. How a terminal merges the two streams is not modelled.
- Factories.NewProgress: the class-level `_console_cache` is an explicit `ConsoleCache` parameter, while `progress(...)` takes none. The model matches the source's single global cache only when callers pass one and the same `ConsoleCache` to every call.
- The console cache key uses `id(file)`, which is modelled as an opaque integer.
- The legacy `pwnlogger/` package is not part of this model. It is an older copy of the same logic, with a different level order and attributes that are never defined.

=== FILE: core.dfy ===
/** The logger facade: threshold, style table, leveled printing and raw printing. */
module Core {
  import opened Wrappers
  import opened Levels
  import opened Theme
  import opened Output

  /** What a widget reads from its logger: the threshold and the style table. */
  datatype LoggerView = LoggerView(minLevel: Level, styles: map<Level, string>)

  /** `_should_log`: the threshold test. ERROR passes every threshold and the default
      threshold DEBUG lets every level through. */
  predicate ShouldLog(minLevel: Level, level: Level)
    ensures level == ERROR ==> ShouldLog(minLevel, level)
    ensures minLevel == DEBUG ==> ShouldLog(minLevel, level)
    ensures ShouldLog(minLevel, level) && minLevel == ERROR ==> level == ERROR
  {
    AtLeast(level, minLevel)
  }

  /** Raising the threshold never lets more levels through, and ERROR always passes. */
  lemma ShouldLogMonotone(lo: Level, hi: Level, l: Level)
    requires AtLeast(hi, lo)
    ensures ShouldLog(hi, l) ==> ShouldLog(lo, l)
    ensures ShouldLog(lo, ERROR) && ShouldLog(hi, ERROR)
    ensures ShouldLog(DEBUG, l)
  {
  }

  /** The console `log` chooses: the error console for ERROR, the stdout console otherwise. */
  function Route(level: Level): (sink: Sink)
    ensures sink == ErrorConsole <==> level == ERROR
    ensures sink == LoggerConsole <==> level != ERROR
    ensures StreamOf(sink) == (if level == ERROR then Stderr else Stdout)
  {
    if level == ERROR then ErrorConsole else LoggerConsole
  }

  /** The constructor's table: a copy of the defaults updated with the overrides. */
  function MergeStyles(overrides: map<Level, string>): (styles: map<Level, string>)
    ensures styles.Keys == AllLevels
    ensures forall l: Level :: l in styles
    ensures forall l :: l in overrides ==> styles[l] == overrides[l]
    ensures forall l :: l !in overrides ==> styles[l] == DefaultStyles()[l]
  {
    DefaultStylesTotal();
    var merged := DefaultStyles() + overrides;
    assert merged.Keys == AllLevels by {
      forall l | l in merged ensures l in AllLevels {
        assert l in DefaultStyles();
      }
    }
    merged
  }

  /** The line `log(level, *objects)` prints, if any. */
  function LogLine(view: LoggerView, level: Level, objects: seq<string>): (line: Option<Event>)
    ensures line.Some? <==> AtLeast(level, view.minLevel)
    ensures line.Some? ==> line.value.sink == Route(level)
    ensures line.Some? ==> line.value.style == Some(StyleFor(view.styles, level))
    ensures line.Some? ==> line.value.parts == objects
  {
    if ShouldLog(view.minLevel, level) then
      Some(Event(Route(level), Some(StyleFor(view.styles, level)), objects))
    else
      None
  }

  /** The message of the TypeError `set_level` raises for a non-member argument. */
  function LevelTypeError(typeName: string): (message: string)
    ensures |message| > |typeName|
    ensures message[|message| - |typeName|..] == typeName
  {
    "Level must be a LogLevel enum, not " + typeName
  }

  class Logger {
    var minLevel: Level
    var styles: map<Level, string>
    /** Where the stdout and stderr consoles print. */
    const out: Streams
    /** Whether the stdout console is a terminal, and the identity of its file. */
    const isTerminal: bool
    const stdoutId: int

    constructor (out: Streams, isTerminal: bool, stdoutId: int,
                 level: Level := DEBUG, overrides: map<Level, string> := map[])
      ensures this.out == out && this.isTerminal == isTerminal && this.stdoutId == stdoutId
      ensures minLevel == level
      ensures styles == MergeStyles(overrides)
    {
      this.out := out;
      this.isTerminal := isTerminal;
      this.stdoutId := stdoutId;
      minLevel := level;
      styles := DefaultStyles();
      if overrides != map[] {
        styles := styles + overrides;
      }
      new;
      assert styles == MergeStyles(overrides);
    }

    function View(): LoggerView
      reads this
    {
      LoggerView(minLevel, styles)
    }

    /** On a non-member argument: the TypeError's message and no change; on a member:
        no error and the new threshold. */
    method SetLevel(arg: LevelArg) returns (error: Option<string>)
      modifies this
      ensures arg.Other? ==> error == Some(LevelTypeError(arg.typeName)) && minLevel == old(minLevel)
      ensures arg.Member? ==> error == None && minLevel == arg.level
      ensures styles == old(styles)
    {
      if !arg.Member? {
        return Some(LevelTypeError(arg.typeName));
      }
      minLevel := arg.level;
      error := None;
    }

    method Log(level: Level, objects: seq<string>)
      modifies out
      ensures out.events == old(out.events) + LogLine(View(), level, objects).ToSeq()
    {
      if ShouldLog(minLevel, level) {
        var style := StyleFor(styles, level);
        var console := if level == ERROR then ErrorConsole else LoggerConsole;
        out.Print(Event(console, Some(style), objects));
      }
    }

    method Success(objects: seq<string>)
      modifies out
      ensures out.events == old(out.events) + LogLine(View(), SUCCESS, objects).ToSeq()
      ensures |out.events| == |old(out.events)| + (if minLevel == ERROR then 0 else 1)
    {
      Log(SUCCESS, objects);
    }

    method Info(objects: seq<string>)
      modifies out
      ensures out.events == old(out.events) + LogLine(View(), INFO, objects).ToSeq()
      ensures |out.events| == |old(out.events)| + (if minLevel in {DEBUG, INFO} then 1 else 0)
    {
      Log(INFO, objects);
    }

    method Warn(objects: seq<string>)
      modifies out
      ensures out.events == old(out.events) + LogLine(View(), WARN, objects).ToSeq()
      ensures |out.events| == |old(out.events)| + (if minLevel in {DEBUG, INFO, WARN} then 1 else 0)
    {
      Log(WARN, objects);
    }

    method Debug(objects: seq<string>)
      modifies out
      ensures out.events == old(out.events) + LogLine(View(), DEBUG, objects).ToSeq()
      ensures |out.events| == |old(out.events)| + (if minLevel == DEBUG then 1 else 0)
    {
      Log(DEBUG, objects);
    }

    /** ERROR passes every threshold: exactly one line, on the error console. */
    method Error(objects: seq<string>)
      modifies out
      ensures out.events == old(out.events) + [Event(ErrorConsole, Some(StyleFor(styles, ERROR)), objects)]
    {
      Log(ERROR, objects);
    }

    /** Exactly one unstyled line on the stdout console, whatever the threshold. */
    method Raw(objects: seq<string>)
      modifies out
      ensures out.events == old(out.events) + [Event(LoggerConsole, None, objects)]
    {
      out.Print(Event(LoggerConsole, None, objects));
    }
  }
}

=== FILE: display.dfy ===
/** The live progress display of the terminal library, as far as the widgets drive it:
    whether its render loop runs, whether it is transient (erased on stop), its tasks,
    and its columns. */
module Rendering {
  import opened Wrappers

  /** The total the library gives a task registered without one. */
  const LibraryDefaultTotal: int := 100

  datatype Task = Task(description: string, completed: int, total: int)

  datatype Column =
    | SpinnerColumn(style: string)
    | TextColumn(template: string)
    | BarColumn(completeStyle: string, finishedStyle: string)
    | TaskProgressColumn
    | TimeRemainingColumn

  datatype Display = Display(started: bool, transient: bool, tasks: seq<Task>)

  function Fresh(transient: bool): (d: Display)
    ensures !d.started && d.tasks == [] && d.transient == transient
  {
    Display(false, transient, [])
  }

  function Start(d: Display): (r: Display)
    ensures r.started && r.tasks == d.tasks && r.transient == d.transient
  {
    d.(started := true)
  }

  function Stop(d: Display): (r: Display)
    ensures !r.started && r.tasks == d.tasks && r.transient == d.transient
  {
    d.(started := false)
  }

  /** Registers a task; task ids are handed out in order from 0. */
  function AddTask(d: Display, t: Task): (r: (Display, nat))
    ensures r.1 == |d.tasks| && r.0.tasks == d.tasks + [t]
    ensures r.0.started == d.started && r.0.transient == d.transient
  {
    (d.(tasks := d.tasks + [t]), |d.tasks|)
  }

  /** The library's task update, taken as given: an absolute `completed` wins, otherwise
      `advance` is added; no clamping to the total; a description, when given, replaces
      the old one. */
  function UpdateTask(d: Display, id: nat, advance: int, completed: Option<int>,
                      description: Option<string>): (r: Display)
    requires id < |d.tasks|
    ensures r.started == d.started && r.transient == d.transient
    ensures |r.tasks| == |d.tasks|
    ensures forall k :: 0 <= k < |d.tasks| && k != id ==> r.tasks[k] == d.tasks[k]
    ensures r.tasks[id].total == d.tasks[id].total
    ensures r.tasks[id].completed ==
      (if completed.Some? then completed.value else d.tasks[id].completed + advance)
    ensures r.tasks[id].description == description.GetOr(d.tasks[id].description)
  {
    var t := d.tasks[id];
    var done := if completed.Some? then completed.value else t.completed + advance;
    var text := if description.Some? then description.value else t.description;
    d.(tasks := d.tasks[id := Task(text, done, t.total)])
  }

  /** A bar column takes the given style for both its complete and finished parts;
      every other column is left as it is. */
  function RestyleColumn(c: Column, style: string): (r: Column)
    ensures r.BarColumn? <==> c.BarColumn?
    ensures r.BarColumn? ==> r.completeStyle == style && r.finishedStyle == style
    ensures !c.BarColumn? ==> r == c
  {
    if c.BarColumn? then BarColumn(style, style) else c
  }

  function Restyled(cs: seq<Column>, style: string): (r: seq<Column>)
    ensures |r| == |cs|
    ensures forall k :: 0 <= k < |cs| ==> r[k] == RestyleColumn(cs[k], style)
  {
    seq(|cs|, k requires 0 <= k < |cs| => RestyleColumn(cs[k], style))
  }
}

=== FILE: factories.dfy ===
/** The logger's widget factories. They live apart from the logger because the widgets
    refer back to it (the source breaks the same cycle with a deferred import). */
module Factories {
  import opened Levels
  import opened Core
  import Status
  import Progress

  /** `status(message, level=INFO)`: visibility is decided by the widget, against the
      threshold current at this call. */
  method NewStatus(logger: Logger, message: string, level: Level := INFO)
    returns (w: Status.StatusWidget)
    ensures fresh(w) && w.logger == logger && w.Valid()
    ensures w.State() == Status.Initial(logger.View(), message, level)
    ensures w.visible <==> AtLeast(level, logger.minLevel)
  {
    w := new Status.StatusWidget(logger, message, level);
  }

  /** `progress(message, total=100, level=INFO)`. */
  method NewProgress(logger: Logger, cache: Progress.ConsoleCache, message: string,
                     total: int := 100, level: Level := INFO)
    returns (w: Progress.ProgressWidget)
    modifies cache
    ensures fresh(w) && fresh(w.columns) && w.logger == logger && w.Valid()
    ensures w.State() == Progress.Initial(logger.View(), message, total, level)
    ensures w.visible <==> AtLeast(level, logger.minLevel)
    ensures var key := Output.CacheKey(Theme.StyleFor(logger.styles, level), logger.isTerminal, logger.stdoutId);
      && key in cache.entries && w.console == cache.entries[key]
      && (key in old(cache.entries) ==> w.console == old(cache.entries[key]) && cache.entries == old(cache.entries))
      && (key !in old(cache.entries) ==> fresh(w.console) && cache.entries == old(cache.entries)[key := w.console])
  {
    w := new Progress.ProgressWidget(logger, cache, message, total, level);
  }

  /** Two bars of the same level share the cached console, and the error theme pushed by
      the first one's ERROR finish is never popped: it is still on top when the second one
      is built. */
  method SharedConsoleKeepsErrorTheme(logger: Logger, cache: Progress.ConsoleCache)
    returns (first: Progress.ProgressWidget, second: Progress.ProgressWidget)
    requires logger.minLevel == DEBUG
    modifies cache, cache.entries.Values, logger.out
    ensures second.console == first.console
    ensures |second.console.themes| >= 1
    ensures var style := Theme.StyleFor(logger.styles, ERROR);
      second.console.themes[|second.console.themes| - 1] == Output.ThemeOverride(style, style)
  {
    first := NewProgress(logger, cache, "first");
    assert fresh(first.console) || first.console in old(cache.entries.Values);
    first.Enter();
    first.Finish(Wrappers.None, Wrappers.Some(ERROR));
    second := NewProgress(logger, cache, "second");
  }
}

=== FILE: levels.dfy ===
/** The five severity levels of the logger (an integer enumeration in the source). */
module Levels {

  datatype Level = DEBUG | INFO | WARN | SUCCESS | ERROR

  /** The integer value of each enumeration member. */
  function Value(l: Level): (v: int)
    ensures 10 <= v <= 50 && v % 10 == 0
  {
    match l
    case DEBUG => 10
    case INFO => 20
    case WARN => 30
    case SUCCESS => 40
    case ERROR => 50
  }

  /** `a >= b` on the enumeration, which compares the integer values. */
  predicate AtLeast(a: Level, b: Level) {
    Value(a) >= Value(b)
  }

  const AllLevels: set<Level> := {DEBUG, INFO, WARN, SUCCESS, ERROR}

  /** Python truthiness of a level (`if level:`): an IntEnum member is falsy iff its value is 0. */
  predicate Truthy(l: Level) {
    Value(l) != 0
  }

  /** The argument given to `set_level`: either a member of the enumeration or any other
      Python object, identified by its type name (a plain int such as 20 is an `Other`). */
  datatype LevelArg = Member(level: Level) | Other(typeName: string)

  lemma LevelValues()
    ensures Value(DEBUG) == 10 && Value(INFO) == 20 && Value(WARN) == 30
    ensures Value(SUCCESS) == 40 && Value(ERROR) == 50
  {
  }

  /** Distinct members have distinct values, so the order on values is a strict total order
      on members: DEBUG < INFO < WARN < SUCCESS < ERROR. */
  lemma StrictTotalOrder(a: Level, b: Level)
    ensures a != b ==> Value(a) != Value(b)
    ensures AtLeast(a, b) || AtLeast(b, a)
    ensures AtLeast(a, b) && AtLeast(b, a) ==> a == b
    ensures Value(DEBUG) < Value(INFO) < Value(WARN) < Value(SUCCESS) < Value(ERROR)
  {
  }

  lemma ErrorIsMaximum(threshold: Level)
    ensures AtLeast(ERROR, threshold)
    ensures AtLeast(threshold, ERROR) ==> threshold == ERROR
  {
  }

  lemma DebugIsMinimum(l: Level)
    ensures AtLeast(l, DEBUG)
    ensures AtLeast(DEBUG, l) ==> l == DEBUG
  {
  }

  /** No member has value 0, so every member is truthy. */
  lemma EveryLevelTruthy(l: Level)
    ensures Truthy(l)
  {
  }
}

=== FILE: lifecycle.dfy ===
/** What the two widgets share in their finalisation: how a scope was left, the message
    for an interruption, and the choice of the final message and level. */
module Lifecycle {
  import opened Wrappers
  import opened Levels

  /** How the `with` block ended: normally, by a KeyboardInterrupt (exactly that type),
      or by any other exception, carried as its `str()`. */
  datatype ExitCause = Clean | Interrupted | Raised(text: string)

  const AbortMessage: string := "Execution aborted by user"

  /** `message if message is not None else self.message`. */
  function FinalMessage(message: Option<string>, current: string): (final: string)
    ensures message.Some? ==> final == message.value
    ensures message.None? ==> final == current
  {
    message.GetOr(current)
  }

  /** `level if level else self.level`: the fallback tests truthiness, not None. Because no
      level has value 0, it is the same as falling back only when no level is given. */
  function FinalLevel(level: Option<Level>, own: Level): (l: Level)
    ensures l == (if level.Some? then level.value else own)
  {
    if level.Some? && Truthy(level.value) then level.value else own
  }
}

=== FILE: mixins.dfy ===
/** The sub-log mixin shared by both widgets: an indented line on the widget's own display
    console, gated by the logger's threshold only. */
module Mixins {
  import opened Wrappers
  import opened Levels
  import opened Theme
  import opened Output
  import opened Core

  /** What `_sub_log` reads from the widget: its logger's threshold and styles, and the
      console of its display. */
  datatype Host = Host(view: LoggerView, console: Sink)

  /** The indentation object printed before the caller's objects. */
  const Indent: string := " "

  function SubLog(host: Host, level: Level, objects: seq<string>): (line: Option<Event>)
    ensures line.Some? <==> AtLeast(level, host.view.minLevel)
    ensures line.Some? ==> line.value.sink == host.console
    ensures line.Some? ==> line.value.style == Some(StyleFor(host.view.styles, level))
    ensures line.Some? ==> |line.value.parts| == |objects| + 1
    ensures line.Some? ==> line.value.parts[0] == Indent && line.value.parts[1..] == objects
  {
    if ShouldLog(host.view.minLevel, level) then
      Some(Event(host.console, Some(StyleFor(host.view.styles, level)), [Indent] + objects))
    else
      None
  }

  /** `success`: printed unless the threshold is ERROR. */
  function Success(host: Host, objects: seq<string>): (line: Option<Event>)
    ensures line.Some? <==> host.view.minLevel != ERROR
    ensures line.Some? ==> line.value.sink == host.console
    ensures line.Some? ==> line.value.style == Some(StyleFor(host.view.styles, SUCCESS))
    ensures line.Some? ==> line.value.parts == [Indent] + objects
  {
    SubLog(host, SUCCESS, objects)
  }

  /** `info`: printed when the threshold is DEBUG or INFO. */
  function Info(host: Host, objects: seq<string>): (line: Option<Event>)
    ensures line.Some? <==> host.view.minLevel in {DEBUG, INFO}
    ensures line.Some? ==> line.value.sink == host.console
    ensures line.Some? ==> line.value.style == Some(StyleFor(host.view.styles, INFO))
    ensures line.Some? ==> line.value.parts == [Indent] + objects
  {
    SubLog(host, INFO, objects)
  }

  /** `warn`: printed when the threshold is at most WARN. */
  function Warn(host: Host, objects: seq<string>): (line: Option<Event>)
    ensures line.Some? <==> host.view.minLevel in {DEBUG, INFO, WARN}
    ensures line.Some? ==> line.value.sink == host.console
    ensures line.Some? ==> line.value.style == Some(StyleFor(host.view.styles, WARN))
    ensures line.Some? ==> line.value.parts == [Indent] + objects
  {
    SubLog(host, WARN, objects)
  }

  /** `error`: always printed, and on the widget's console, not the logger's error console. */
  function Error(host: Host, objects: seq<string>): (line: Option<Event>)
    ensures line.Some? && line.value.sink == host.console
    ensures line.value.style == Some(StyleFor(host.view.styles, ERROR))
    ensures line.value.parts == [Indent] + objects
  {
    SubLog(host, ERROR, objects)
  }

  /** `debug`: printed only when the threshold is DEBUG. */
  function Debug(host: Host, objects: seq<string>): (line: Option<Event>)
    ensures line.Some? <==> host.view.minLevel == DEBUG
    ensures line.Some? ==> line.value.sink == host.console
    ensures line.Some? ==> line.value.style == Some(StyleFor(host.view.styles, DEBUG))
    ensures line.Some? ==> line.value.parts == [Indent] + objects
  {
    SubLog(host, DEBUG, objects)
  }
}

=== FILE: output.dfy ===
/** The output side of the terminal library, reduced to what the logger observes:
    which console a line is printed on, with which style, and the printed objects. */
module Output {
  import opened Wrappers

  datatype Stream = Stdout | Stderr

  /** The style overrides a widget console's theme gives to "progress.percentage" and
      "progress.remaining". */
  datatype ThemeOverride = ThemeOverride(percentage: string, remaining: string)

  /** The key of the class-level console cache: (style, is_terminal, id(file)).
      The file identity is an opaque number. */
  datatype CacheKey = CacheKey(style: string, isTerminal: bool, fileId: int)

  /** A console built by a progress widget: it writes to the logger's stdout file and
      carries a stack of theme overrides. */
  class ThemedConsole {
    const key: CacheKey
    var themes: seq<ThemeOverride>

    constructor (key: CacheKey)
      ensures this.key == key
      ensures themes == [ThemeOverride(key.style, key.style)]
    {
      this.key := key;
      themes := [ThemeOverride(key.style, key.style)];
    }

    /** `push_theme`: the new override takes precedence over the earlier ones. */
    method PushTheme(t: ThemeOverride)
      modifies this
      ensures themes == old(themes) + [t]
    {
      themes := themes + [t];
    }
  }

  /** The console a line is printed on: the logger's stdout console, its stderr console,
      or a themed widget console. */
  datatype Sink = LoggerConsole | ErrorConsole | Themed(console: ThemedConsole)

  function StreamOf(sink: Sink): (stream: Stream)
    ensures stream == Stderr <==> sink == ErrorConsole
  {
    match sink
    case LoggerConsole => Stdout
    case ErrorConsole => Stderr
    // a themed console is built on the logger console's file, which is stdout
    case Themed(_) => Stdout
  }

  /** One printed line; `style` is None for an unstyled print. */
  datatype Event = Event(sink: Sink, style: Option<string>, parts: seq<string>)

  /** Everything printed so far, in order, on all consoles. */
  class Streams {
    var events: seq<Event>

    constructor ()
      ensures events == []
    {
      events := [];
    }

    method Print(e: Event)
      modifies this
      ensures events == old(events) + [e]
    {
      events := events + [e];
    }

    /** Prints the line if there is one. */
    method PrintOptional(e: Option<Event>)
      modifies this
      ensures events == old(events) + e.ToSeq()
    {
      if e.Some? {
        Print(e.value);
      }
    }
  }
}

=== FILE: progress.dfy ===
/** The progress-bar widget: a persistent bar with a completion count, finished either by
    completing the bar and logging a line, or, on ERROR, by freezing and restyling it. */
module Progress {
  import opened Wrappers
  import opened Levels
  import opened Theme
  import opened Output
  import opened Rendering
  import opened Core
  import Mixins
  import opened Lifecycle

  /** The widget's fields; `columns` are the display's columns, which an ERROR finish
      restyles in place. */
  datatype ProgressState = ProgressState(
    message: string,
    level: Level,
    visible: bool,
    total: int,
    taskId: Option<nat>,
    display: Display,
    columns: seq<Column>)

  /** An invisible widget never touches its display; a task id names a registered task;
      the display runs only while a task is registered; the bar display is not transient. */
  ghost predicate Wf(s: ProgressState) {
    && (!s.visible ==> s.taskId.None? && s.display == Rendering.Fresh(false))
    && (s.taskId.Some? ==> s.taskId.value < |s.display.tasks|)
    && (s.display.started ==> s.taskId.Some?)
    && !s.display.transient
  }

  predicate Active(s: ProgressState) {
    s.visible && s.taskId.Some?
  }

  /** The state after an operation, the lines it printed and the theme overrides it
      pushed onto the display's console. */
  datatype Step = Step(state: ProgressState, events: seq<Event>, pushed: seq<ThemeOverride>)

  /** Sub-log lines of a progress bar go to its display's themed console. */
  function SubLogHost(view: LoggerView, console: ThemedConsole): Mixins.Host {
    Mixins.Host(view, Themed(console))
  }

  /** The columns of a new bar: its description in the widget's style, the bar, the
      percentage and the time remaining. */
  function BarColumns(style: string): (columns: seq<Column>)
    ensures |columns| == 4
    ensures columns[0].TextColumn? && columns[1] == BarColumn(style, style)
    ensures columns[2] == TaskProgressColumn && columns[3] == TimeRemainingColumn
  {
    [TextColumn("[" + style + "]{task.description}"), BarColumn(style, style),
     TaskProgressColumn, TimeRemainingColumn]
  }

  /** The description of a bar finished at ERROR: the message wrapped in style markup. */
  function ErrorMarkup(style: string, message: string): (markup: string)
    ensures |markup| == |message| + 2 * |style| + 5
    ensures markup[..|style| + 2] == "[" + style + "]"
    ensures markup[|style| + 2..|style| + 2 + |message|] == message
    ensures markup[|style| + 2 + |message|..] == "[/" + style + "]"
  {
    "[" + style + "]" + message + "[/" + style + "]"
  }

  function TaskOf(s: ProgressState): (t: Task)
    requires Wf(s) && s.taskId.Some?
  {
    s.display.tasks[s.taskId.value]
  }

  /** `__init__`: visibility is decided once, against the threshold of this moment. */
  function Initial(view: LoggerView, message: string, total: int, level: Level): (s: ProgressState)
    ensures Wf(s)
    ensures s.visible <==> AtLeast(level, view.minLevel)
    ensures s.taskId.None? && s.display == Rendering.Fresh(false)
    ensures s.message == message && s.level == level && s.total == total
    ensures s.columns == BarColumns(StyleFor(view.styles, level))
  {
    ProgressState(message, level, ShouldLog(view.minLevel, level), total, None,
                  Rendering.Fresh(false), BarColumns(StyleFor(view.styles, level)))
  }

  /** `__enter__`: a visible widget starts its display and registers a task for `total`
      with nothing completed; an invisible one is left as it is. */
  function Entered(s: ProgressState): (r: ProgressState)
    requires Wf(s)
    ensures Wf(r)
    ensures r.taskId.Some? <==> s.visible
    ensures r.display.started <==> s.visible
    ensures s.visible ==> r.taskId == Some(|s.display.tasks|)
    ensures s.visible ==> r.display.tasks == s.display.tasks + [Task(s.message, 0, s.total)]
    ensures s.visible ==> TaskOf(r) == Task(s.message, 0, s.total)
    ensures !s.visible ==> r == s
    ensures r.visible == s.visible && r.level == s.level && r.total == s.total
    ensures r.message == s.message && r.columns == s.columns
  {
    if s.visible then
      var (d, id) := AddTask(Rendering.Start(s.display), Task(s.message, 0, s.total));
      s.(display := d, taskId := Some(id))
    else
      s
  }

  /** `stop`: stops a started display; on a stopped one it changes nothing. */
  function Stopped(s: ProgressState): (r: ProgressState)
    ensures r == s.(display := Rendering.Stop(s.display))
    ensures !r.display.started
    ensures Wf(s) ==> Wf(r)
  {
    if s.display.started then s.(display := Rendering.Stop(s.display)) else s
  }

  /** `update`: a description is recorded as the message in every state; the display's
      task changes only while the widget is active. */
  function Updated(s: ProgressState, advance: int, completed: Option<int>,
                   description: Option<string>): (r: ProgressState)
    requires Wf(s)
    ensures Wf(r)
    ensures r.message == description.GetOr(s.message)
    ensures !Active(s) ==> r == s.(message := r.message)
    ensures Active(s) ==> r.taskId == s.taskId && TaskOf(r).total == TaskOf(s).total
    ensures Active(s) ==>
      TaskOf(r).completed == (if completed.Some? then completed.value else TaskOf(s).completed + advance)
    ensures Active(s) ==>
      r.display.tasks == s.display.tasks[s.taskId.value := Task(
        description.GetOr(TaskOf(s).description),
        if completed.Some? then completed.value else TaskOf(s).completed + advance,
        TaskOf(s).total)]
    ensures r.visible == s.visible && r.level == s.level && r.total == s.total
    ensures r.columns == s.columns && r.display.started == s.display.started
  {
    var s1 := if description.Some? then s.(message := description.value) else s;
    if s.visible && s.taskId.Some? then
      s1.(display := UpdateTask(s.display, s.taskId.value, advance, completed, description))
    else
      s1
  }

  /** `finish`: a no-op unless active. At ERROR the bar keeps its completion, its
      description becomes the styled message, its bar columns and console theme take the
      error style, and nothing is logged. Otherwise the bar is completed to `total` and the
      line goes through `log`, so the current threshold and stream routing apply. Both
      stop the display and clear the task id. */
  function Finished(view: LoggerView, s: ProgressState, message: Option<string>,
                    level: Option<Level>): (r: Step)
    requires Wf(s)
    ensures Wf(r.state)
    ensures !Active(s) ==> r == Step(s, [], [])
    ensures Active(s) ==> r.state.taskId.None? && !r.state.display.started
    ensures Active(s) ==> |r.state.display.tasks| == |s.display.tasks|
    ensures Active(s) && (level == Some(ERROR) || (level.None? && s.level == ERROR)) ==>
      var id := s.taskId.value;
      var style := StyleFor(view.styles, ERROR);
      var m := if message.Some? then message.value else s.message;
      && r.state.display.tasks[id].completed == s.display.tasks[id].completed
      && r.state.display.tasks[id].description == ErrorMarkup(style, m)
      && r.state.display.tasks == s.display.tasks[id := s.display.tasks[id].(description := ErrorMarkup(style, m))]
      && r.state.columns == Restyled(s.columns, style)
      && r.events == []
      && r.pushed == [ThemeOverride(style, style)]
    ensures Active(s) && !(level == Some(ERROR) || (level.None? && s.level == ERROR)) ==>
      var id := s.taskId.value;
      var l := if level.Some? then level.value else s.level;
      var m := if message.Some? then message.value else s.message;
      && r.state.display.tasks[id].completed == s.total
      && r.state.display.tasks[id].description == s.display.tasks[id].description
      && r.state.display.tasks == s.display.tasks[id := s.display.tasks[id].(completed := s.total)]
      && r.state.columns == s.columns
      && r.events == LogLine(view, l, [m]).ToSeq()
      && r.pushed == []
    ensures r.state.visible == s.visible && r.state.level == s.level && r.state.total == s.total
    ensures r.state.message == s.message
  {
    if !s.visible || s.taskId.None? then
      Step(s, [], [])
    else
      var id := s.taskId.value;
      var fMessage := FinalMessage(message, s.message);
      var fLevel := FinalLevel(level, s.level);
      if fLevel == ERROR then
        var style := StyleFor(view.styles, fLevel);
        var d := UpdateTask(s.display, id, 0, None, Some(ErrorMarkup(style, fMessage)));
        var frozen := s.(columns := Restyled(s.columns, style), display := d);
        Step(Stopped(frozen).(taskId := None), [], [ThemeOverride(style, style)])
      else
        var d := UpdateTask(s.display, id, 0, Some(s.total), None);
        Step(Stopped(s.(display := d)).(taskId := None), LogLine(view, fLevel, [fMessage]).ToSeq(), [])
  }

  /** `__exit__`: nothing for an invisible widget; otherwise finishes by cause (a normal
      exit only if still active) and then always stops the display. */
  function Exited(view: LoggerView, s: ProgressState, cause: ExitCause): (r: Step)
    requires Wf(s)
    ensures Wf(r.state)
    ensures !Active(s) ==> r == Step(s, [], [])
    ensures s.visible ==> !r.state.display.started && r.state.taskId.None?
    ensures r.state.visible == s.visible && r.state.level == s.level && r.state.total == s.total
    ensures r.state.message == s.message
    ensures |r.state.display.tasks| == |s.display.tasks|
    ensures s.taskId.None? ==> r.state.display.tasks == s.display.tasks
    ensures s.taskId.Some? ==> forall k :: 0 <= k < |s.display.tasks| && k != s.taskId.value ==>
      r.state.display.tasks[k] == s.display.tasks[k]
    ensures r.state.columns == s.columns || r.state.columns == Restyled(s.columns, StyleFor(view.styles, ERROR))
  {
    if !s.visible then
      Step(s, [], [])
    else
      var f := match cause
        case Interrupted => Finished(view, s, Some(AbortMessage), Some(ERROR))
        case Raised(text) => Finished(view, s, Some(text), Some(ERROR))
        case Clean => if s.taskId.Some? then Finished(view, s, None, None) else Step(s, [], []);
      Step(Stopped(f.state), f.events, f.pushed)
  }

  /** Leaving an active bar by an exception keeps its completion, pushes the error theme and
      prints nothing; leaving it normally completes it and logs its message at its own
      level, unless that level is ERROR, in which case the bar is frozen like on an
      exception. */
  lemma ExitOutcome(view: LoggerView, s: ProgressState, cause: ExitCause)
    requires Wf(s) && Active(s)
    ensures var r := Exited(view, s, cause);
      var id := s.taskId.value;
      var style := StyleFor(view.styles, ERROR);
      && (cause != Clean ==>
            && r.state.display.tasks[id].completed == s.display.tasks[id].completed
            && r.events == []
            && r.pushed == [ThemeOverride(style, style)]
            && r.state.display.tasks[id].description ==
                 ErrorMarkup(style, if cause == Interrupted then AbortMessage else cause.text)
            && r.state.display.tasks == s.display.tasks[id := s.display.tasks[id].(description :=
                 ErrorMarkup(style, if cause == Interrupted then AbortMessage else cause.text))]
            && r.state.columns == Restyled(s.columns, style))
      && (cause == Clean && s.level != ERROR ==>
            && r.state.display.tasks[id].completed == s.total
            && r.state.display.tasks == s.display.tasks[id := s.display.tasks[id].(completed := s.total)]
            && r.state.columns == s.columns
            && r.events == LogLine(view, s.level, [s.message]).ToSeq()
            && r.pushed == [])
      && (cause == Clean && s.level == ERROR ==>
            && r.state.display.tasks[id].completed == s.display.tasks[id].completed
            && r.state.display.tasks[id].description == ErrorMarkup(style, s.message)
            && r.state.display.tasks == s.display.tasks[id := s.display.tasks[id].(description := ErrorMarkup(style, s.message))]
            && r.state.columns == Restyled(s.columns, style)
            && r.events == []
            && r.pushed == [ThemeOverride(style, style)])
  {
  }

  /** Finishing twice, or finishing and then leaving the scope normally, finishes once. */
  lemma FinishIdempotent(view: LoggerView, s: ProgressState, m1: Option<string>, l1: Option<Level>,
                         m2: Option<string>, l2: Option<Level>)
    requires Wf(s)
    ensures var first := Finished(view, s, m1, l1);
      && Finished(view, first.state, m2, l2) == Step(first.state, [], [])
      && Exited(view, first.state, Clean) == Step(first.state, [], [])
      && |first.events| <= 1
  {
  }

  /** Unlike the spinner's, the bar's final line is dropped when the threshold has since
      been raised above its level. */
  lemma FinalLineIsGated(view: LoggerView, s: ProgressState)
    requires Wf(s) && Active(s) && view.minLevel == ERROR && s.level != ERROR
    ensures Finished(view, s, None, None).events == []
    ensures Finished(view, s, None, None).state.display.tasks[s.taskId.value].completed == s.total
  {
  }

  /** One call on the widget, or a change of the logger's threshold between calls. */
  datatype Op =
    | OpEnter
    | OpUpdate(advance: int, completed: Option<int>, description: Option<string>)
    | OpFinish(finalMessage: Option<string>, finalLevel: Option<Level>)
    | OpStop
    | OpExit(cause: ExitCause)
    | OpSubLog(subLevel: Level, objects: seq<string>)
    | OpSetLevel(threshold: Level)

  datatype Trace = Trace(view: LoggerView, state: ProgressState, events: seq<Event>,
                         pushed: seq<ThemeOverride>)

  function Apply(view: LoggerView, console: ThemedConsole, s: ProgressState, op: Op): (t: Trace)
    requires Wf(s)
    ensures Wf(t.state)
  {
    match op
    case OpEnter => Trace(view, Entered(s), [], [])
    case OpUpdate(a, c, d) => Trace(view, Updated(s, a, c, d), [], [])
    case OpFinish(m, l) => var r := Finished(view, s, m, l); Trace(view, r.state, r.events, r.pushed)
    case OpStop => Trace(view, Stopped(s), [], [])
    case OpExit(c) => var r := Exited(view, s, c); Trace(view, r.state, r.events, r.pushed)
    case OpSubLog(l, objects) =>
      Trace(view, s, Mixins.SubLog(SubLogHost(view, console), l, objects).ToSeq(), [])
    case OpSetLevel(l) => Trace(view.(minLevel := l), s, [], [])
  }

  /** The operations in order, with everything they print and push. */
  function Run(view: LoggerView, console: ThemedConsole, s: ProgressState, ops: seq<Op>): (t: Trace)
    requires Wf(s)
    ensures Wf(t.state)
    decreases |ops|
  {
    if ops == [] then
      Trace(view, s, [], [])
    else
      var first := Apply(view, console, s, ops[0]);
      var rest := Run(first.view, console, first.state, ops[1..]);
      Trace(rest.view, rest.state, first.events + rest.events, first.pushed + rest.pushed)
  }

  /** `visible`, `level` and `total` never change after construction, whatever threshold
      changes happen in between. */
  lemma {:induction false} VisibilityFrozen(view: LoggerView, console: ThemedConsole,
                                            s: ProgressState, ops: seq<Op>)
    requires Wf(s)
    ensures Run(view, console, s, ops).state.visible == s.visible
    ensures Run(view, console, s, ops).state.level == s.level
    ensures Run(view, console, s, ops).state.total == s.total
    decreases |ops|
  {
    if ops != [] {
      var first := Apply(view, console, s, ops[0]);
      VisibilityFrozen(first.view, console, first.state, ops[1..]);
    }
  }

  /** A line printed by the sub-log mixin on the given console. */
  predicate IsSubLogLine(e: Event, console: ThemedConsole) {
    e.sink == Themed(console) && |e.parts| > 0 && e.parts[0] == Mixins.Indent
  }

  /** One operation on an invisible bar. */
  lemma InvisibleStep(view: LoggerView, console: ThemedConsole, s: ProgressState, op: Op)
    requires Wf(s) && !s.visible
    ensures var t := Apply(view, console, s, op);
      && t.state == s.(message := t.state.message)
      && t.pushed == []
      && (forall e <- t.events :: IsSubLogLine(e, console))
      && (!op.OpSubLog? ==> t.events == [])
  {
  }

  /** An invisible bar keeps everything but its message (which `update` still records),
      pushes no theme, and prints nothing but sub-log lines on its own console; without
      sub-log calls it prints nothing at all. */
  lemma {:induction false} InvisibleIsSilent(view: LoggerView, console: ThemedConsole,
                                             s: ProgressState, ops: seq<Op>)
    requires Wf(s) && !s.visible
    ensures var t := Run(view, console, s, ops);
      && t.state == s.(message := t.state.message)
      && t.pushed == []
      && (forall e <- t.events :: IsSubLogLine(e, console))
      && ((forall op <- ops :: !op.OpSubLog?) ==> t.events == [])
    decreases |ops|
  {
    if ops != [] {
      var first := Apply(view, console, s, ops[0]);
      InvisibleStep(view, console, s, ops[0]);
      InvisibleIsSilent(first.view, console, first.state, ops[1..]);
      assert ops[0] in ops;
      assert forall op <- ops[1..] :: op in ops;
    }
  }

  /** Once finished, no further update, finish, stop or exit prints, pushes a theme, or
      moves the bar: its completion stays frozen. */
  lemma {:induction false} FinishedIsQuiet(view: LoggerView, console: ThemedConsole,
                                           s: ProgressState, ops: seq<Op>)
    requires Wf(s) && s.taskId.None?
    requires forall op <- ops :: !op.OpEnter? && !op.OpSubLog?
    ensures Run(view, console, s, ops).events == []
    ensures Run(view, console, s, ops).pushed == []
    ensures Run(view, console, s, ops).state.taskId.None?
    ensures Run(view, console, s, ops).state.display.tasks == s.display.tasks
    decreases |ops|
  {
    if ops != [] {
      var first := Apply(view, console, s, ops[0]);
      assert ops[0] in ops;
      assert forall op <- ops[1..] :: op in ops;
      FinishedIsQuiet(first.view, console, first.state, ops[1..]);
    }
  }

  /** A sub-log line at or above the threshold is printed whatever the lifecycle state, on
      the bar's own console, never on the logger's error console. */
  lemma SubLogIgnoresLifecycle(view: LoggerView, console: ThemedConsole, s: ProgressState,
                               level: Level, objects: seq<string>)
    requires Wf(s) && AtLeast(level, view.minLevel)
    ensures var t := Apply(view, console, s, OpSubLog(level, objects));
      && t.state == s
      && |t.events| == 1
      && t.events[0].sink == Themed(console)
      && t.events[0].sink != ErrorConsole
      && t.events[0].parts == [Mixins.Indent] + objects
  {
  }

  /** A bar of 100 advanced by 30 stays at 30 when an exception ends its scope, and is
      completed to 100 by a plain `finish()`. */
  lemma PartialBarScenario(view: LoggerView, console: ThemedConsole)
    requires view.minLevel == INFO
    ensures var s := Initial(view, "working", 100, INFO);
      var failed := Run(view, console, s, [OpEnter, OpUpdate(30, None, None), OpExit(Raised("boom"))]);
      var done := Run(view, console, s, [OpEnter, OpUpdate(30, None, None), OpFinish(None, None)]);
      && failed.state.display.tasks == [Task(ErrorMarkup(StyleFor(view.styles, ERROR), "boom"), 30, 100)]
      && failed.events == []
      && done.state.display.tasks == [Task("working", 100, 100)]
      && done.events == [Event(LoggerConsole, Some(StyleFor(view.styles, INFO)), ["working"])]
  {
    var s := Initial(view, "working", 100, INFO);
    var entered := Apply(view, console, s, OpEnter);
    var advanced := Apply(entered.view, console, entered.state, OpUpdate(30, None, None));
    assert advanced.state.display.tasks == [Task("working", 30, 100)];
  }

  /** The console cache shared by all progress widgets (a class-level dictionary). */
  class ConsoleCache {
    var entries: map<CacheKey, ThemedConsole>

    /** The cache starts empty. */
    constructor ()
      ensures entries == map[]
    {
      entries := map[];
    }
  }

  class ProgressWidget {
    const logger: Logger
    const level: Level
    const visible: bool
    var message: string
    const total: int
    var taskId: Option<nat>
    var display: Display
    const columns: array<Column>
    /** The display's console, from the cache. */
    const console: ThemedConsole

    function State(): ProgressState
      reads this, columns
    {
      ProgressState(message, level, visible, total, taskId, display, columns[..])
    }

    ghost predicate Valid()
      reads this, columns
    {
      Wf(State())
    }

    /** Builds the widget; the display console is the cached one for (style, is_terminal,
        stdout identity) if there is one, else a new console that is cached for the key. */
    constructor (logger: Logger, cache: ConsoleCache, message: string, total: int,
                 level: Level := INFO)
      modifies cache
      ensures this.logger == logger && fresh(columns)
      ensures Valid() && State() == Initial(logger.View(), message, total, level)
      ensures var key := CacheKey(StyleFor(logger.styles, level), logger.isTerminal, logger.stdoutId);
        && key in cache.entries && console == cache.entries[key]
        && (key in old(cache.entries) ==> console == old(cache.entries[key]) && cache.entries == old(cache.entries))
        && (key !in old(cache.entries) ==> fresh(console) && cache.entries == old(cache.entries)[key := console])
    {
      this.logger := logger;
      this.level := level;
      visible := ShouldLog(logger.minLevel, level);
      this.message := message;
      this.total := total;
      taskId := None;
      var style := StyleFor(logger.styles, level);
      var key := CacheKey(style, logger.isTerminal, logger.stdoutId);
      var local: ThemedConsole;
      if key in cache.entries {
        local := cache.entries[key];
      } else {
        local := new ThemedConsole(key);
        cache.entries := cache.entries[key := local];
      }
      console := local;
      display := Rendering.Fresh(false);
      var cs := BarColumns(style);
      columns := new Column[4](i requires 0 <= i < 4 => cs[i]);
      new;
      assert columns[..] == cs;
    }

    method Enter()
      requires Valid()
      modifies this
      ensures Valid() && State() == Entered(old(State()))
    {
      if visible {
        display := Rendering.Start(display);
        var registered := AddTask(display, Task(message, 0, total));
        display := registered.0;
        taskId := Some(registered.1);
      }
    }

    method Stop()
      requires Valid()
      modifies this
      ensures Valid() && State() == Stopped(old(State()))
    {
      if display.started {
        display := Rendering.Stop(display);
      }
    }

    method Update(advance: int, completed: Option<int>, description: Option<string>)
      requires Valid()
      modifies this
      ensures Valid() && State() == Updated(old(State()), advance, completed, description)
    {
      if description.Some? {
        message := description.value;
      }
      if visible && taskId.Some? {
        display := UpdateTask(display, taskId.value, advance, completed, description);
      }
    }

    /** Gives every bar column the style, in place. */
    method RestyleBars(style: string)
      modifies columns
      ensures columns[..] == Restyled(old(columns[..]), style)
    {
      var i := 0;
      while i < columns.Length
        invariant 0 <= i <= columns.Length
        invariant forall k :: 0 <= k < i ==> columns[k] == RestyleColumn(old(columns[k]), style)
        invariant forall k :: i <= k < columns.Length ==> columns[k] == old(columns[k])
      {
        if columns[i].BarColumn? {
          columns[i] := BarColumn(style, style);
        }
        i := i + 1;
      }
    }

    method Finish(message: Option<string>, level: Option<Level>)
      requires Valid()
      modifies this, columns, console, logger.out
      ensures Valid()
      ensures var step := Finished(logger.View(), old(State()), message, level);
        && State() == step.state
        && logger.out.events == old(logger.out.events) + step.events
        && console.themes == old(console.themes) + step.pushed
    {
      if !visible || taskId.None? {
        return;
      }
      var fMessage := FinalMessage(message, this.message);
      var fLevel := FinalLevel(level, this.level);
      if fLevel == ERROR {
        var style := StyleFor(logger.styles, fLevel);
        console.PushTheme(ThemeOverride(style, style));
        RestyleBars(style);
        display := UpdateTask(display, taskId.value, 0, None, Some(ErrorMarkup(style, fMessage)));
        Stop();
        taskId := None;
        return;
      }
      display := UpdateTask(display, taskId.value, 0, Some(total), None);
      Stop();
      taskId := None;
      logger.Log(fLevel, [fMessage]);
    }

    /** Returns whether the exception is suppressed: never. */
    method Exit(cause: ExitCause) returns (suppress: bool)
      requires Valid()
      modifies this, columns, console, logger.out
      ensures Valid() && !suppress
      ensures var step := Exited(logger.View(), old(State()), cause);
        && State() == step.state
        && logger.out.events == old(logger.out.events) + step.events
        && console.themes == old(console.themes) + step.pushed
    {
      if !visible {
        return false;
      }
      match cause {
        case Interrupted => Finish(Some(AbortMessage), Some(ERROR));
        case Raised(text) => Finish(Some(text), Some(ERROR));
        case Clean =>
          if taskId.Some? {
            Finish(None, None);
          }
      }
      Stop();
      return false;
    }

    method SubLog(level: Level, objects: seq<string>)
      modifies logger.out
      ensures logger.out.events ==
        old(logger.out.events) + Mixins.SubLog(SubLogHost(logger.View(), console), level, objects).ToSeq()
    {
      logger.out.PrintOptional(Mixins.SubLog(SubLogHost(logger.View(), console), level, objects));
    }
  }
}

=== FILE: status.dfy ===
/** The spinner widget: a transient one-line animation that is replaced by one static
    line when it is finished. */
module Status {
  import opened Wrappers
  import opened Levels
  import opened Theme
  import opened Output
  import opened Rendering
  import opened Core
  import Mixins
  import opened Lifecycle

  /** The widget's fields: `task_id` is the "active" flag. */
  datatype StatusState = StatusState(
    message: string,
    level: Level,
    visible: bool,
    taskId: Option<nat>,
    display: Display)

  /** An invisible widget never touches its display; a task id names a registered task;
      the display runs only while a task is registered; the spinner display is transient. */
  ghost predicate Wf(s: StatusState) {
    && (!s.visible ==> s.taskId.None? && s.display == Rendering.Fresh(true))
    && (s.taskId.Some? ==> s.taskId.value < |s.display.tasks|)
    && (s.display.started ==> s.taskId.Some?)
    && s.display.transient
  }

  predicate Active(s: StatusState) {
    s.visible && s.taskId.Some?
  }

  /** The state after an operation and the lines it printed. */
  datatype Step = Step(state: StatusState, events: seq<Event>)

  /** Sub-log lines of a spinner go to the display's console, which is the logger's
      stdout console. */
  function SubLogHost(view: LoggerView): Mixins.Host {
    Mixins.Host(view, LoggerConsole)
  }

  /** `__init__`: visibility is decided once, against the threshold of this moment. */
  function Initial(view: LoggerView, message: string, level: Level): (s: StatusState)
    ensures Wf(s)
    ensures s.visible <==> AtLeast(level, view.minLevel)
    ensures s.taskId.None? && s.display == Rendering.Fresh(true)
    ensures s.message == message && s.level == level
  {
    StatusState(message, level, ShouldLog(view.minLevel, level), None, Rendering.Fresh(true))
  }

  /** `__enter__`: a visible widget starts its display and registers one task; an invisible
      one is left as it is. */
  function Entered(s: StatusState): (r: StatusState)
    requires Wf(s)
    ensures Wf(r)
    ensures r.taskId.Some? <==> s.visible
    ensures r.display.started <==> s.visible
    ensures r.visible == s.visible && r.level == s.level && r.message == s.message
    ensures s.visible ==> r.taskId == Some(|s.display.tasks|)
    ensures s.visible ==> r.display.tasks == s.display.tasks + [Task(s.message, 0, LibraryDefaultTotal)]
  {
    if s.visible then
      var (d, id) := AddTask(Rendering.Start(s.display), Task(s.message, 0, LibraryDefaultTotal));
      s.(display := d, taskId := Some(id))
    else
      s
  }

  /** `stop`: stops a started display; on a stopped one it changes nothing. */
  function Stopped(s: StatusState): (r: StatusState)
    ensures r == s.(display := Rendering.Stop(s.display))
    ensures !r.display.started
    ensures Wf(s) ==> Wf(r)
  {
    if s.display.started then s.(display := Rendering.Stop(s.display)) else s
  }

  /** `update`: takes effect only on an active widget. */
  function Updated(s: StatusState, message: string): (r: StatusState)
    requires Wf(s)
    ensures Wf(r)
    ensures !Active(s) ==> r == s
    ensures Active(s) ==> r.message == message && r.taskId == s.taskId
    ensures Active(s) ==> r.display.tasks[s.taskId.value].description == message
    ensures Active(s) ==>
      r.display.tasks == s.display.tasks[s.taskId.value := s.display.tasks[s.taskId.value].(description := message)]
    ensures r.visible == s.visible && r.level == s.level && r.display.started == s.display.started
  {
    if s.visible && s.taskId.Some? then
      s.(message := message,
         display := UpdateTask(s.display, s.taskId.value, 0, None, Some(message)))
    else
      s
  }

  /** `finish`: a no-op unless active; otherwise stops the display, clears the task id and
      prints one line, routed and styled by the final level like `log`, but printed
      whatever the current threshold is. */
  function Finished(view: LoggerView, s: StatusState, message: Option<string>,
                    level: Option<Level>): (r: Step)
    requires Wf(s)
    ensures Wf(r.state)
    ensures !Active(s) ==> r == Step(s, [])
    ensures Active(s) ==> r.state.taskId.None? && !r.state.display.started && |r.events| == 1
    ensures Active(s) ==>
      var l := if level.Some? then level.value else s.level;
      var m := if message.Some? then message.value else s.message;
      r.events[0] == Event(Route(l), Some(StyleFor(view.styles, l)), [m])
    ensures r.state.visible == s.visible && r.state.level == s.level
    ensures r.state.message == s.message && r.state.display.tasks == s.display.tasks
  {
    if !s.visible || s.taskId.None? then
      Step(s, [])
    else
      var fMessage := FinalMessage(message, s.message);
      var fLevel := FinalLevel(level, s.level);
      var style := StyleFor(view.styles, fLevel);
      var console := if fLevel == ERROR then ErrorConsole else LoggerConsole;
      Step(Stopped(s).(taskId := None), [Event(console, Some(style), [fMessage])])
  }

  /** `__exit__`: nothing for an invisible widget; otherwise finishes by cause and then
      always stops the display. */
  function Exited(view: LoggerView, s: StatusState, cause: ExitCause): (r: Step)
    requires Wf(s)
    ensures Wf(r.state)
    ensures !Active(s) ==> r == Step(s, [])
    ensures s.visible ==> !r.state.display.started && r.state.taskId.None?
    ensures r.state.visible == s.visible && r.state.level == s.level
    ensures r.state.message == s.message && r.state.display.tasks == s.display.tasks
  {
    if !s.visible then
      Step(s, [])
    else
      var f := match cause
        case Interrupted => Finished(view, s, Some(AbortMessage), Some(ERROR))
        case Raised(text) => Finished(view, s, Some(text), Some(ERROR))
        case Clean => Finished(view, s, None, Some(s.level));
      Step(Stopped(f.state), f.events)
  }

  /** The three ways out of an active spinner, each with exactly one line; leaving an
      entered-then-finished (or never entered) visible widget prints nothing. */
  lemma ExitFinalLine(view: LoggerView, s: StatusState, cause: ExitCause)
    requires Wf(s) && s.visible
    ensures s.taskId.None? ==> Exited(view, s, cause).events == []
    ensures s.taskId.Some? && cause == Interrupted ==>
      Exited(view, s, cause).events == [Event(ErrorConsole, Some(StyleFor(view.styles, ERROR)), [AbortMessage])]
    ensures s.taskId.Some? && cause.Raised? ==>
      Exited(view, s, cause).events == [Event(ErrorConsole, Some(StyleFor(view.styles, ERROR)), [cause.text])]
    ensures s.taskId.Some? && cause == Clean ==>
      Exited(view, s, cause).events == [Event(Route(s.level), Some(StyleFor(view.styles, s.level)), [s.message])]
  {
  }

  /** Finishing twice, or finishing and then leaving the scope normally, prints the final
      line once. */
  lemma FinishIdempotent(view: LoggerView, s: StatusState, m1: Option<string>, l1: Option<Level>,
                         m2: Option<string>, l2: Option<Level>)
    requires Wf(s)
    ensures var first := Finished(view, s, m1, l1);
      && Finished(view, first.state, m2, l2) == Step(first.state, [])
      && Exited(view, first.state, Clean) == Step(first.state, [])
      && |first.events| <= 1
  {
  }

  /** The final line is printed even when the threshold has since been raised above it. */
  lemma FinalLineIgnoresThreshold(view: LoggerView, s: StatusState)
    requires Wf(s) && Active(s) && view.minLevel == ERROR && s.level != ERROR
    ensures var r := Finished(view, s, None, None);
      && r.events == [Event(LoggerConsole, Some(StyleFor(view.styles, s.level)), [s.message])]
      && !ShouldLog(view.minLevel, s.level)
  {
  }

  /** One call on the widget, or a change of the logger's threshold between calls. */
  datatype Op =
    | OpEnter
    | OpUpdate(text: string)
    | OpFinish(finalMessage: Option<string>, finalLevel: Option<Level>)
    | OpStop
    | OpExit(cause: ExitCause)
    | OpSubLog(subLevel: Level, objects: seq<string>)
    | OpSetLevel(threshold: Level)

  datatype Trace = Trace(view: LoggerView, state: StatusState, events: seq<Event>)

  function Apply(view: LoggerView, s: StatusState, op: Op): (t: Trace)
    requires Wf(s)
    ensures Wf(t.state)
  {
    match op
    case OpEnter => Trace(view, Entered(s), [])
    case OpUpdate(m) => Trace(view, Updated(s, m), [])
    case OpFinish(m, l) => var r := Finished(view, s, m, l); Trace(view, r.state, r.events)
    case OpStop => Trace(view, Stopped(s), [])
    case OpExit(c) => var r := Exited(view, s, c); Trace(view, r.state, r.events)
    case OpSubLog(l, objects) => Trace(view, s, Mixins.SubLog(SubLogHost(view), l, objects).ToSeq())
    case OpSetLevel(l) => Trace(view.(minLevel := l), s, [])
  }

  /** The operations in order, with everything they print. */
  function Run(view: LoggerView, s: StatusState, ops: seq<Op>): (t: Trace)
    requires Wf(s)
    ensures Wf(t.state)
    decreases |ops|
  {
    if ops == [] then
      Trace(view, s, [])
    else
      var first := Apply(view, s, ops[0]);
      var rest := Run(first.view, first.state, ops[1..]);
      Trace(rest.view, rest.state, first.events + rest.events)
  }

  /** `visible` and `level` never change after construction, whatever threshold changes
      happen in between. */
  lemma {:induction false} VisibilityFrozen(view: LoggerView, s: StatusState, ops: seq<Op>)
    requires Wf(s)
    ensures Run(view, s, ops).state.visible == s.visible
    ensures Run(view, s, ops).state.level == s.level
    decreases |ops|
  {
    if ops != [] {
      var first := Apply(view, s, ops[0]);
      VisibilityFrozen(first.view, first.state, ops[1..]);
    }
  }

  /** An invisible spinner stays untouched and prints nothing but sub-log lines (which
      only the threshold gates); without sub-log calls it prints nothing at all. */
  lemma {:induction false} InvisibleIsSilent(view: LoggerView, s: StatusState, ops: seq<Op>)
    requires Wf(s) && !s.visible
    ensures Run(view, s, ops).state == s
    ensures forall e <- Run(view, s, ops).events ::
      e.sink == LoggerConsole && |e.parts| > 0 && e.parts[0] == Mixins.Indent
    ensures (forall op <- ops :: !op.OpSubLog?) ==> Run(view, s, ops).events == []
    decreases |ops|
  {
    if ops != [] {
      var first := Apply(view, s, ops[0]);
      InvisibleIsSilent(first.view, first.state, ops[1..]);
      assert ops[0] in ops;
      assert forall op <- ops[1..] :: op in ops;
    }
  }

  /** Once finished, no further update, finish, stop or exit prints anything or reactivates
      the widget. */
  lemma {:induction false} FinishedIsQuiet(view: LoggerView, s: StatusState, ops: seq<Op>)
    requires Wf(s) && s.taskId.None?
    requires forall op <- ops :: !op.OpEnter? && !op.OpSubLog?
    ensures Run(view, s, ops).events == []
    ensures Run(view, s, ops).state.taskId.None?
    decreases |ops|
  {
    if ops != [] {
      var first := Apply(view, s, ops[0]);
      assert ops[0] in ops;
      assert forall op <- ops[1..] :: op in ops;
      FinishedIsQuiet(first.view, first.state, ops[1..]);
    }
  }

  /** A sub-log line at or above the threshold is printed whatever the lifecycle state:
      before `__enter__`, after `finish`, and on an invisible widget; it goes to the display
      console, which for the spinner is the stdout console, even at ERROR. */
  lemma SubLogIgnoresLifecycle(view: LoggerView, s: StatusState, level: Level, objects: seq<string>)
    requires Wf(s) && AtLeast(level, view.minLevel)
    ensures var t := Apply(view, s, OpSubLog(level, objects));
      && t.state == s
      && |t.events| == 1
      && t.events[0].sink == LoggerConsole
      && t.events[0].parts == [Mixins.Indent] + objects
  {
  }

  class StatusWidget {
    const logger: Logger
    var message: string
    const level: Level
    const visible: bool
    var taskId: Option<nat>
    var display: Display

    function State(): StatusState
      reads this
    {
      StatusState(message, level, visible, taskId, display)
    }

    ghost predicate Valid()
      reads this
    {
      Wf(State())
    }

    constructor (logger: Logger, message: string, level: Level := INFO)
      ensures this.logger == logger
      ensures Valid() && State() == Initial(logger.View(), message, level)
    {
      this.logger := logger;
      this.message := message;
      this.level := level;
      visible := ShouldLog(logger.minLevel, level);
      taskId := None;
      display := Rendering.Fresh(true);
    }

    method Enter()
      requires Valid()
      modifies this
      ensures Valid() && State() == Entered(old(State()))
    {
      if visible {
        display := Rendering.Start(display);
        var registered := AddTask(display, Task(message, 0, LibraryDefaultTotal));
        display := registered.0;
        taskId := Some(registered.1);
      }
    }

    method Stop()
      requires Valid()
      modifies this
      ensures Valid() && State() == Stopped(old(State()))
    {
      if display.started {
        display := Rendering.Stop(display);
      }
    }

    method Update(message: string)
      requires Valid()
      modifies this
      ensures Valid() && State() == Updated(old(State()), message)
    {
      if visible && taskId.Some? {
        this.message := message;
        display := UpdateTask(display, taskId.value, 0, None, Some(message));
      }
    }

    method Finish(message: Option<string>, level: Option<Level>)
      requires Valid()
      modifies this, logger.out
      ensures Valid()
      ensures var step := Finished(logger.View(), old(State()), message, level);
        State() == step.state && logger.out.events == old(logger.out.events) + step.events
    {
      if !visible || taskId.None? {
        return;
      }
      var fMessage := FinalMessage(message, this.message);
      var fLevel := FinalLevel(level, this.level);
      var style := StyleFor(logger.styles, fLevel);
      Stop();
      taskId := None;
      if fLevel == ERROR {
        logger.out.Print(Event(ErrorConsole, Some(style), [fMessage]));
      } else {
        logger.out.Print(Event(LoggerConsole, Some(style), [fMessage]));
      }
    }

    /** Returns whether the exception is suppressed: never. */
    method Exit(cause: ExitCause) returns (suppress: bool)
      requires Valid()
      modifies this, logger.out
      ensures Valid() && !suppress
      ensures var step := Exited(logger.View(), old(State()), cause);
        State() == step.state && logger.out.events == old(logger.out.events) + step.events
    {
      suppress := false;
      if !visible {
        return;
      }
      match cause {
        case Interrupted => Finish(Some(AbortMessage), Some(ERROR));
        case Raised(text) => Finish(Some(text), Some(ERROR));
        case Clean => Finish(None, Some(this.level));
      }
      Stop();
    }

    method SubLog(level: Level, objects: seq<string>)
      modifies logger.out
      ensures logger.out.events ==
        old(logger.out.events) + Mixins.SubLog(SubLogHost(logger.View()), level, objects).ToSeq()
    {
      logger.out.PrintOptional(Mixins.SubLog(SubLogHost(logger.View()), level, objects));
    }
  }
}

=== FILE: theme.dfy ===
/** The default level-to-style table and the `styles.get(level, "")` lookup. */
module Theme {
  import opened Levels

  /** `DEFAULT_STYLES`: a style for each of the five levels. */
  function DefaultStyles(): (styles: map<Level, string>)
    ensures styles.Keys == AllLevels
  {
    map[SUCCESS := "bold green", ERROR := "bold red", WARN := "bold yellow",
        INFO := "bold blue", DEBUG := "dim"]
  }

  /** `styles.get(level, "")`: the table's entry, or the empty style when the level is missing. */
  function StyleFor(styles: map<Level, string>, level: Level): (style: string)
    ensures level in styles ==> style == styles[level]
    ensures level !in styles ==> style == ""
  {
    if level in styles then styles[level] else ""
  }

  lemma DefaultStylesTotal()
    ensures DefaultStyles().Keys == AllLevels
    ensures forall l: Level :: l in DefaultStyles()
  {
    forall l: Level ensures l in DefaultStyles() {
      assert l in AllLevels by { match l { case DEBUG => case INFO => case WARN => case SUCCESS => case ERROR => } }
    }
  }

  lemma DefaultStyleValues()
    ensures DefaultStyles()[SUCCESS] == "bold green"
    ensures DefaultStyles()[ERROR] == "bold red"
    ensures DefaultStyles()[WARN] == "bold yellow"
    ensures DefaultStyles()[INFO] == "bold blue"
    ensures DefaultStyles()[DEBUG] == "dim"
  {
  }

  lemma DefaultStylesDistinct(a: Level, b: Level)
    ensures a != b ==> DefaultStyles()[a] != DefaultStyles()[b]
  {
  }

  /** With no overrides the lookup never falls back to the empty style. */
  lemma DefaultLookupNeverEmpty(l: Level)
    ensures StyleFor(DefaultStyles(), l) == DefaultStyles()[l]
    ensures StyleFor(DefaultStyles(), l) != ""
  {
  }
}

=== FILE: wrappers.dfy ===
/** Optional values, as used for the source's `None` defaults. */
module Wrappers {
  datatype Option<T> = None | Some(value: T) {
    function GetOr(default: T): T {
      if Some? then value else default
    }
    /** Zero or one element: the lines a call that may stay silent emits. */
    function ToSeq(): (s: seq<T>)
      ensures |s| <= 1
      ensures |s| == 1 <==> Some?
      ensures Some? ==> s[0] == value
    {
      if Some? then [value] else []
    }
  }
}
